=== FILE: README.md ===
# checkmate task service — Dafny model

This project models the decision logic of the checkmate task service. The service is a JSON API plus an HTML form for
creating, listing, reading, replacing, patching, completing and deleting tasks. The Go handlers in `main.go` sit over
one SQLite table. Here that table is an abstract store:

- a map from id to `Task`;
- an id counter that stands for the table's auto-increment key (the first id is 1);
- a logical clock that stands for the `created_at` / `updated_at` timestamps.

Each handler is a pure function from the store and the request to a `Reply`. A reply holds the response code, the
response body and the new store.

Modules:

- `Tasks` (`tasks.dfy`): the `Task` row and the three legal statuses (`pending`, `in_progress`, `done`). The status set
  is checked against a typed enumeration. It also holds the store and its invariant `Valid`. Under `Valid`:
  - rows sit under their own id, below the counter;
  - timestamps lie below the clock, with `created_at <= updated_at`;
  - every status is legal;
  - `created_at` grows with insertion order.
- `Pagination` (`pagination.dfy`): the `page` / `limit` query parameters. It models Go's `strconv.Atoi` on a 64-bit
  platform, with the error ignored as the handler ignores it. Malformed text reads as 0, so `?page=1x` is page 1. An
  overlong number reads as the nearest 64-bit bound. Go's scan stops at the first overflow before it looks at later
  characters, so `?page=99999999999999999999x` is the largest page, not page 1. The module also holds the clamping,
  the row offset and the page window.
- `Query` (`query.dfy`): the list query. It covers the exact-status filter and the substring search in title or
  description. It counts all matching rows, orders them by `created_at`, newest first, and cuts the page window.
- `Handlers` (`handlers.dfy`): one function per handler, plus `Handle`, which routes a request, and `Run`, which serves
  a sequence of requests.
- `HandlerProperties` (`properties.dfy`): lemmas relating handlers to each other and to the invariant.
- `Scenarios` (`scenarios.dfy`): worked request sequences.

In three places the code does something a reader of the API might not expect. The model follows the code each time:

- One might expect deleting a missing id to fail. It answers 204. The delete handler never looks the row up, and a delete
  that matches no row reports no error (`Handlers.DeleteTask`, `HandlerProperties.DeleteMissingIsNoContent`).
- One might expect every stored title to be non-empty, since the JSON create requires one. It is not an invariant of the
  table. The HTML form create never checks the title, and a patch can set
  it to "" (`HandlerProperties.FormAcceptsEmptyTitle`, `HandlerProperties.PatchCanClearTitle`).
- One might expect patch and replace to treat an empty status alike. A patch refuses the empty status text, because ""
  is not in the allowed set. A replace reads "" as "keep the current
  status" (`HandlerProperties.PatchRefusesEmptyStatus`, `HandlerProperties.ReplaceStatusAsymmetry`).

## Model

| member | source | states |
|---|---|---|
| Tasks.StatusName | main.go:34-38 | each of the three states is named by a string in the allowed set |
| Tasks.ParseStatus | main.go:34-38 | a string reads as a state exactly when it is in the allowed set, and reads back to its own name |
| Tasks.StatusNameRoundTrip | main.go:34-38 | naming a state and reading it back gives that state, so the names are distinct |
| Tasks.AllowedStatusesShape | main.go:34-38 | the allowed set has exactly three members, the empty string is not one, and membership agrees with the enumeration |
| Tasks.EmptyStoreValid | main.go:23-31 | a fresh table satisfies the table invariant |
| Pagination.ParseUint | main.go:133-134 | a number is read only from a non-empty string of decimal digits, its value fits 64 bits unsigned, and a leading non-digit is a syntax error |
| Pagination.ScanDigits | main.go:133-134 | the base-10 digit scan of `Atoi` stays within 64 bits and never returns less than what it has read |
| Pagination.Atoi | main.go:133-134 | the value read is always a 64-bit integer, and the empty string reads as 0 |
| Pagination.AtoiNegative | main.go:133-134 | a minus sign negates: the spelling of any magnitude up to 2^63 reads back negated |
| Pagination.AtoiSaturates | main.go:133-134 | a magnitude above 2^63-1 that fits 64 unsigned bits reads as the largest 64-bit value, and negated as the smallest |
| Pagination.AtoiStopsAtNonDigit | main.go:133-134 | after an optional sign, up to 19 digits followed by a non-digit are a syntax error and read as 0, whatever follows |
| Pagination.AtoiOverflowsFirst | main.go:133-134 | twenty digits led by 2 or more overflow before anything after them is looked at, so they read as the nearest 64-bit bound even when a non-digit follows |
| Pagination.OverlongPageIsLargest | main.go:131-137 | `?page=99999999999999999999x` is the largest page, not page 1 |
| Pagination.ScanDigitsAppend | main.go:133-134 | once a prefix has scanned cleanly, the scan of the rest goes on from the prefix's value |
| Pagination.ScanShortDigits | main.go:133-134 | at most 19 digits never overflow: k digits scan to a value below 10^k |
| Pagination.AtoiDecimal | main.go:133-134 | round trip: the decimal spelling of any non-negative 64-bit value reads back as that value |
| Pagination.NormalizePage | main.go:131-137 | the page is always in [1, 2^63-1]: the parsed value when it is at least 1, else 1 |
| Pagination.NormalizeLimit | main.go:132-140 | the limit is always in [1, 100]: the parsed value when it is in range, else 20 |
| Pagination.NormalizePageExamples | main.go:131-137 | a missing, empty, malformed or negative page is 1; a well-formed page of at least 1 is kept |
| Pagination.NormalizeLimitExamples | main.go:132-140 | a missing, empty, malformed, 0 or 101 limit is 20; a well-formed limit in [1, 100] is kept |
| Pagination.NormalizeIdempotent | main.go:131-140 | feeding the page and limit in force back in as query text yields the same page and limit |
| Pagination.Wrap64 | main.go:141 | two's-complement wrap-around into 64 bits; values that fit are unchanged |
| Pagination.OffsetAsWritten | main.go:141 | the offset in 64-bit arithmetic equals the true offset whenever that fits in 64 bits |
| Pagination.OffsetAsWrittenWraps | main.go:141 | the largest page gets offset -40, and page 288230376151711746 of 64 rows gets the offset of page 2 |
| Pagination.Offset | main.go:141-160 | the offset the listing uses: 0 exactly on page 1 (for a positive limit), and at least one full page on any later page |
| Pagination.OffsetIsProduct | main.go:141 | the offset of a page, the rows of all earlier pages, is the product `(page - 1) * limit` in unbounded integers |
| Pagination.PagesDoNotOverlap | main.go:141 | with the true offset, a later page starts at least one full page after an earlier one |
| Pagination.PageOf | main.go:141 | every row position lies on a page whose offset is at most the position and within one page of it; that page is unique by `PagesDoNotOverlap` |
| Pagination.Window | main.go:160 | a page is at most `limit` consecutive rows starting at the offset, and empty past the end |
| Pagination.PagesTile | main.go:160 | page p followed by page p+1 is the double-length window at page p, with no gap or overlap |
| Query.ContainsSound | main.go:152-155 | whatever the search test finds occurs at some position of the text |
| Query.ContainsComplete | main.go:152-155 | the search test finds every occurrence of the search text |
| Query.ContainsIff | main.go:152-155 | the search test holds exactly when the search text occurs at some position, in both directions |
| Query.Contains | main.go:152-155 | the empty search text is found in every text, and no text holds a longer one |
| Query.Matches | main.go:149-155 | a row passes the filter exactly when it has the given status (if one is given) and the search text occurs at some position of its title or description (if one is given) |
| Query.Collect | main.go:148-158 | the matching rows are as many as the matching ids, each a matching row of the table, with none missing |
| Query.InsertNewestFirst | main.go:160 | inserting a row into a newest-first sequence keeps it newest-first and adds exactly that row |
| Query.SortNewestFirst | main.go:160 | ordering yields a newest-first permutation of the rows |
| Query.WindowOfNewestFirst | main.go:160 | a page of a newest-first sequence is newest-first and holds only its rows |
| Query.ListTasks | main.go:129-165 | the page and limit are the clamped request values (page >= 1, 1 <= limit <= 100); at most `limit` rows, each a matching row of the table, newest first; total counts every matching row |
| Query.OrderedAreMatching | main.go:148-160 | in a valid table the ordered rows the listing pages through are exactly the table's rows that pass the filter, as many as the total |
| Query.ListPageIsWindowOfAllMatches | main.go:141-160 | a page is the window, at the clamped page's offset and of the clamped limit's length, of a newest-first sequence holding exactly the table's matching rows, as many as the total |
| Query.ListTotalIgnoresWindow | main.go:157-160 | the total depends on the filters only, never on the page or the limit |
| Query.EveryMatchOnSomePage | main.go:131-160 | every matching row appears on some page, whatever the limit |
| Handlers.Insert | main.go:120-125 | `db.Create`: the row is stored under the next id, stamped with the clock, with exactly the given fields; the counter and the clock advance |
| Handlers.CreateTask | main.go:105-126 | 201 exactly when the body binds with a title and an empty or legal status, else 400 with no change; the new row gets a fresh id, the payload fields, a legal status, `pending` by default |
| Handlers.Handle | main.go:79-86 | every route answers one of six codes, reads leave the table unchanged, a delete leaves the id absent, and only the two create routes hand out an id |
| Handlers.ListHandler | main.go:129-166 | always 200 with the listing, echoing the clamped page and limit, and the table is unchanged |
| Handlers.GetTask | main.go:169-177 | 200 with the row exactly when it exists, else 404; the table is unchanged |
| Handlers.ReplaceTask | main.go:180-211 | 404 for a missing row before the body is read; 400 with no change for a bad body or illegal status; on success title, description and due date are overwritten, status only when given, id and creation time kept, and the row is stamped |
| Handlers.ApplyPatch | main.go:235-238 | the columns a patch names are written, columns it does not name are kept, and the row is stamped |
| Handlers.PatchTask | main.go:214-248 | 404 for a missing row; 400 with no change for a bad body or an illegal text status; on success a given text title, description or status and a given due date are written, absent keys keep their fields, id and creation time are kept, the row is stamped, and a given status is legal |
| Handlers.DeleteTask | main.go:251-258 | always 204; afterwards the id is absent and every other row is unchanged |
| Handlers.CompleteTask | main.go:261-274 | 404 with no change for a missing row; otherwise status becomes `done` and the other fields except the update time are kept, and the row is stamped |
| Handlers.FormDueDate | main.go:289-298 | an empty due date gives none; a non-empty one is the parser's result: the date when it parses, none (never an error) when it does not |
| Handlers.CreateTaskFromForm | main.go:286-311 | always inserts a row with status `pending` and the form's title as given, then redirects with 303 |
| HandlerProperties.CreatePreservesValid | main.go:105-126 | create keeps the table invariant |
| HandlerProperties.ReplacePreservesValid | main.go:180-211 | replace keeps the table invariant |
| HandlerProperties.PatchPreservesValid | main.go:214-248 | a patch of the modelled forms (text values under the lowercase column keys) keeps the table invariant |
| HandlerProperties.CompletePreservesValid | main.go:261-274 | complete keeps the table invariant |
| HandlerProperties.DeletePreservesValid | main.go:251-258 | delete keeps the table invariant |
| HandlerProperties.FormCreatePreservesValid | main.go:286-311 | form create keeps the table invariant |
| HandlerProperties.HandlePreservesValid | main.go:79-86 | every modelled route keeps the table invariant; the patch forms left out below are outside this promise |
| HandlerProperties.RunPreservesValid | main.go:79-86 | any sequence of requests served from a valid table leaves it valid |
| HandlerProperties.ReachableIsValid | main.go:79-86 | every table reachable from a fresh one is valid |
| HandlerProperties.CreateThenGet | main.go:105-126 | a created row gets a fresh id and is read back unchanged, `pending` when no status was given |
| HandlerProperties.DeleteThenGet | main.go:251-258 | after a delete, reading the id gives 404 |
| HandlerProperties.DeleteMissingIsNoContent | main.go:251-258 | deleting an id with no row answers 204 and changes nothing |
| HandlerProperties.CompleteIdempotent | main.go:261-274 | completing twice gives the same row and contents as completing once, update times aside |
| HandlerProperties.CompleteFrame | main.go:261-274 | completion changes no row other than the completed one |
| HandlerProperties.ReplaceAndPatchFrame | main.go:180-248 | replace and patch change no row other than the addressed one |
| HandlerProperties.PatchIgnoresProtectedKeys | main.go:235-237 | a patch naming `id` or `created_at` behaves exactly like the same patch without them |
| HandlerProperties.ReplaceStatusAsymmetry | main.go:199-204 | on replace an empty status keeps the old one, while an empty description and missing due date overwrite |
| HandlerProperties.FormAcceptsEmptyTitle | main.go:286-305 | the JSON create refuses an empty title, but the form create stores it, as `pending` with no due date |
| HandlerProperties.PatchCanClearTitle | main.go:228-238 | a patch can set the title to the empty string |
| HandlerProperties.PatchRefusesEmptyStatus | main.go:228-233 | a patch with the empty status text is refused with 400 and no change |
| Scenarios.BuyMilk | main.go:105-274 | create "Buy milk" gives id 1 and `pending`; complete gives `done`; listing `status=done` gives total 1 and exactly that row |
| Scenarios.PatchBogusStatus | main.go:228-233 | a patch with status "bogus" answers 400 and leaves the table unchanged |

## Findings

| source | as written | input that shows it | evidently intended | confidence | as-written member | corrected member |
|---|---|---|---|---|---|---|
| main.go:141 | `offset := (page - 1) * limit` in Go's 64-bit `int`, with `page` limited only to at least 1 | `page=9223372036854775807` (limit 20) gives offset -40; `page=288230376151711746&limit=64` gives offset 64, the offset of page 2 | the offset of page p is the non-negative (p-1)*limit, and distinct pages never share a row position | medium, not executed | Pagination.OffsetAsWrittenWraps | Pagination.OffsetIsProduct, Pagination.PagesDoNotOverlap |

The rest of the model (`Query.ListTasks`) uses the corrected `Pagination.Offset`. It counts the rows of all earlier
pages without overflow, and `Pagination.OffsetIsProduct` proves it equal to the handler's product in unbounded integers.
Nothing here says how the database treats a negative offset.

## Left out

- Routing, CORS, the health endpoint, environment configuration and `main`: plumbing, with no decisions beyond defaults.
- `renderIndex`, the HTML templates and `formatDate`: presentation only.
- Storage failures. The abstract table never fails, so the 500 answers of every handler are not modelled.
- SQLite and gorm themselves: `Save`, `Updates`, `Delete`, auto-migration and connection handling. A mutation is a map
  update plus a clock tick.
- The SQL `LIKE` search is modelled as a case-sensitive plain substring test. SQLite's case folding for ASCII and the
  wildcard meaning of `%` and `_` inside `q` are not modelled.
- Real time and `time.Parse`. Timestamps are a logical clock. The form's date parser is the parameter `parseDate`, an
  uninterpreted partial function.
- JSON decoding. A body either fails to bind (`Malformed`) or decodes into a payload. `binding:"required"` is modelled
  as "an empty title fails binding".
- Values of other JSON types in a patch (`OtherValue`, or a non-text value for a text column) have no effect in the
  model. gorm's conversion of such values cannot be seen from the handler. This includes a non-string `status`, which
  the handler does not validate.
- Client-supplied `id`, `created_at` and `updated_at` in a create payload, and `updated_at` in a patch, are not
  modelled. The create handler passes its whole payload to `db.Create`, so gorm decides what those fields become; the
  model always gives a fresh id and the clock. A replace copies only title, description, status and due date into
  the stored row, so the handler itself ignores those fields there, as the model does.
- Patch keys spelled with Go field names (`ID`, `CreatedAt`) are not modelled. gorm's resolution of such keys is not
  visible, and the handler strips only `id` and `created_at`.
- A non-numeric `:id` path segment is not modelled. ids are natural numbers.
- Ids come from a counter that never repeats. A SQLite table without AUTOINCREMENT may reuse the largest id after that
  row is deleted.
- Rows with equal `created_at` have no specified order in SQL. In the model they never occur in a valid table.
- Query.ListTasks: the total is stated as the number of matching rows only for a valid table. An invalid table could
  hold ids at or above the counter, and those are not enumerated. The page is cut at the corrected offset, not at
  the 64-bit one: for a page whose offset wraps (see Findings), the service shows the rows at the wrapped offset (for
  page 288230376151711746 of 64 rows, the rows of page 2), while the model shows the rows at the true offset, usually
  none.
- HandlerProperties.PatchPreservesValid / HandlePreservesValid / RunPreservesValid / ReachableIsValid: the invariant
  holds only because the patch forms listed above are left out. That includes the guarantee that every stored status is
  legal. The handler validates only a string value under the exact key `status`. A `null` or non-string `status`, or a
  `Status` key, would reach `Updates` unchecked and could store an illegal status. A key that is not a column would
  fail with 500. The model treats all of these as having no effect, so a table it calls reachable and valid may, in
  the service, be reached only through requests of the modelled forms.

=== FILE: handlers.dfy ===
/** The HTTP handlers of the task service, each a pure function from the
    table and the request to the response code, the response body and the
    new table. Routing, JSON encoding and the database driver are not
    modelled; what remains is the decision each handler makes. */
module Handlers {
  import opened Tasks
  import opened Pagination
  import opened Query

  const StatusOK: int := 200
  const StatusCreated: int := 201
  const StatusNoContent: int := 204
  const StatusSeeOther: int := 303
  const StatusBadRequest: int := 400
  const StatusNotFound: int := 404

  const InvalidStatus: string := "invalid status"
  const TaskNotFound: string := "task not found"

  /** A JSON request body as the binder sees it: one that does not decode
      into the expected shape, or the decoded payload. */
  datatype Body<T> = Malformed | Json(payload: T)

  /** The fields of a task that a create or replace request carries. */
  datatype TaskPayload = TaskPayload(title: string, description: string, status: string, dueDate: Option<Date>)

  /** A value of a patch payload, as the column it is written to reads it:
      text, a whole number, a logical timestamp, a due date (or null), or a
      value of some other JSON type. */
  datatype PatchValue =
    | Text(text: string)
    | Number(n: int)
    | Stamp(at: nat)
    | DueDate(date: Option<Date>)
    | OtherValue

  type Patch = map<string, PatchValue>

  /** The fields of the HTML form; a missing field reads as "". */
  datatype Form = Form(title: string, description: string, dueDate: string)

  datatype ResponseBody =
    | TaskJson(task: Task)
    | ListJson(listing: Listing)
    | ErrorJson(message: string)
    | BindError
    | NoBody
    | RedirectTo(location: string)

  datatype Reply = Reply(code: int, body: ResponseBody, store: Store)

  /** Rows other than `id` are neither added, removed nor changed. */
  ghost predicate OthersUnchanged(s: Store, s': Store, id: nat) {
    forall k :: k != id ==> (k in s'.rows <==> k in s.rows) && (k in s.rows ==> s'.rows[k] == s.rows[k])
  }

  /** Binding a task payload succeeds when the body decodes and carries a
      non-empty title (the title is a required field). */
  predicate Binds(b: Body<TaskPayload>) {
    b.Json? && b.payload.title != ""
  }

  /** A status a create or replace request may carry: none at all, or a
      legal one. */
  predicate AcceptableStatus(status: string) {
    status == "" || IsAllowedStatus(status)
  }

  /** Inserts `t` under the next id, stamping it with the clock. */
  function Insert(s: Store, title: string, description: string, status: string, due: Option<Date>): (r: Reply)
    ensures r.code == StatusCreated && r.body.TaskJson?
    ensures r.body.task.id == s.nextId && r.store.rows == s.rows[s.nextId := r.body.task]
    ensures r.store.nextId == s.nextId + 1 && r.store.clock == s.clock + 1
    ensures r.body.task.createdAt == r.body.task.updatedAt == s.clock
    ensures r.body.task.title == title && r.body.task.description == description
    ensures r.body.task.status == status && r.body.task.dueDate == due
  {
    var t := Task(s.nextId, title, description, status, due, s.clock, s.clock);
    Reply(StatusCreated, TaskJson(t), Store(s.rows[s.nextId := t], s.nextId + 1, s.clock + 1))
  }

  /** Stores the new version `t` of row `id` and advances the clock. */
  function Save(s: Store, id: nat, t: Task): Store {
    Store(s.rows[id := t], s.nextId, s.clock + 1)
  }

  /** POST /tasks. A body that does not bind, or a non-empty status outside
      the allowed set, is refused with 400 and the table is unchanged.
      Otherwise a row is inserted under a fresh id with the payload's
      fields, and with status `pending` when none was given. */
  function CreateTask(s: Store, body: Body<TaskPayload>): (r: Reply)
    ensures r.code == StatusCreated || r.code == StatusBadRequest
    ensures r.code == StatusCreated <==> Binds(body) && AcceptableStatus(body.payload.status)
    ensures r.code == StatusBadRequest ==> r.store == s
    ensures r.code == StatusCreated ==>
      && r.body.TaskJson?
      && var t := r.body.task;
      && t.id == s.nextId
      && r.store.rows == s.rows[t.id := t]
      && r.store.nextId > t.id
      && IsAllowedStatus(t.status)
      && t.status == (if body.payload.status == "" then Pending else body.payload.status)
      && t.title == body.payload.title && t.description == body.payload.description
      && t.dueDate == body.payload.dueDate
  {
    if !Binds(body) then Reply(StatusBadRequest, BindError, s)
    else
      var p := body.payload;
      if p.status == "" then Insert(s, p.title, p.description, Pending, p.dueDate)
      else if !IsAllowedStatus(p.status) then Reply(StatusBadRequest, ErrorJson(InvalidStatus), s)
      else Insert(s, p.title, p.description, p.status, p.dueDate)
  }

  /** GET /tasks: always 200 with the listing; the table is unchanged. */
  function ListHandler(s: Store, req: ListRequest): (r: Reply)
    ensures r.code == StatusOK && r.store == s && r.body.ListJson?
    ensures r.body.listing.page == NormalizePage(req.page) && r.body.listing.limit == NormalizeLimit(req.limit)
    ensures r.body.listing.total == ListTasks(s, req).total
    ensures r.body.listing.tasks == ListTasks(s, req).tasks
  {
    Reply(StatusOK, ListJson(ListTasks(s, req)), s)
  }

  /** GET /tasks/{id}: the row with 200, or 404; the table is unchanged. */
  function GetTask(s: Store, id: nat): (r: Reply)
    ensures r.store == s
    ensures r.code == StatusOK <==> id in s.rows
    ensures r.code == StatusOK ==> r.body == TaskJson(s.rows[id])
    ensures r.code != StatusOK ==> r.code == StatusNotFound
  {
    if id in s.rows then Reply(StatusOK, TaskJson(s.rows[id]), s)
    else Reply(StatusNotFound, ErrorJson(TaskNotFound), s)
  }

  /** PUT /tasks/{id}. A missing row gives 404 before the body is looked
      at; then a body that does not bind, or a non-empty illegal status,
      gives 400. Both leave the table unchanged. On success title,
      description and due date are overwritten unconditionally (the due date
      may be cleared), but the status only when the payload carries one;
      id and creation time are kept. */
  function ReplaceTask(s: Store, id: nat, body: Body<TaskPayload>): (r: Reply)
    ensures r.code in {StatusOK, StatusBadRequest, StatusNotFound}
    ensures r.code == StatusNotFound <==> id !in s.rows
    ensures r.code == StatusOK <==> id in s.rows && Binds(body) && AcceptableStatus(body.payload.status)
    ensures r.code != StatusOK ==> r.store == s
    ensures r.code == StatusOK ==>
      && r.body.TaskJson?
      && var prev, t, p := s.rows[id], r.body.task, body.payload;
      && r.store.rows == s.rows[id := t]
      && r.store.nextId == s.nextId
      && t.id == prev.id && t.createdAt == prev.createdAt
      && t.title == p.title && t.description == p.description && t.dueDate == p.dueDate
      && (p.status == "" ==> t.status == prev.status)
      && (p.status != "" ==> t.status == p.status && IsAllowedStatus(t.status))
      && t.updatedAt == s.clock
  {
    if id !in s.rows then Reply(StatusNotFound, ErrorJson(TaskNotFound), s)
    else if !Binds(body) then Reply(StatusBadRequest, BindError, s)
    else
      var p := body.payload;
      if p.status != "" && !IsAllowedStatus(p.status) then Reply(StatusBadRequest, ErrorJson(InvalidStatus), s)
      else
        var prev := s.rows[id];
        var t := prev.(title := p.title, description := p.description,
                       status := if p.status != "" then p.status else prev.status,
                       dueDate := p.dueDate, updatedAt := s.clock);
        Reply(StatusOK, TaskJson(t), Save(s, id, t))
  }

  /** The text a patch writes to a column, or the current value when the
      key is absent or carries no text. */
  function PatchedText(current: string, p: Patch, key: string): (v: string)
    ensures key !in p ==> v == current
    ensures key in p && p[key].Text? ==> v == p[key].text
  {
    if key in p && p[key].Text? then p[key].text else current
  }

  /** Writes the columns a patch names to a row and stamps it with `now`.
      Keys the table knows and values of the column's type are written;
      keys absent from the patch leave their column as it was. Without the
      handler's stripping, `id` and `created_at` would be written too. */
  function ApplyPatch(t: Task, p: Patch, now: nat): (u: Task)
    ensures u.updatedAt == now
    ensures "id" !in p ==> u.id == t.id
    ensures "created_at" !in p ==> u.createdAt == t.createdAt
    ensures "title" !in p ==> u.title == t.title
    ensures "description" !in p ==> u.description == t.description
    ensures "status" !in p ==> u.status == t.status
    ensures "due_date" !in p ==> u.dueDate == t.dueDate
    ensures "title" in p && p["title"].Text? ==> u.title == p["title"].text
    ensures "description" in p && p["description"].Text? ==> u.description == p["description"].text
    ensures "status" in p && p["status"].Text? ==> u.status == p["status"].text
    ensures "due_date" in p && p["due_date"].DueDate? ==> u.dueDate == p["due_date"].date
  {
    t.(id := if "id" in p && p["id"].Number? && p["id"].n >= 0 then p["id"].n else t.id,
       createdAt := if "created_at" in p && p["created_at"].Stamp? then p["created_at"].at else t.createdAt,
       title := PatchedText(t.title, p, "title"),
       description := PatchedText(t.description, p, "description"),
       status := PatchedText(t.status, p, "status"),
       dueDate := if "due_date" in p && p["due_date"].DueDate? then p["due_date"].date else t.dueDate,
       updatedAt := now)
  }

  /** The keys a patch may never write. */
  const ProtectedKeys: set<string> := {"id", "created_at"}

  /** A patch carrying a text status outside the allowed set (the empty
      text included). */
  predicate HasIllegalStatus(p: Patch) {
    "status" in p && p["status"].Text? && !IsAllowedStatus(p["status"].text)
  }

  /** PATCH /tasks/{id}. A missing row gives 404; a body that does not
      decode, or a text status outside the allowed set, gives 400; both
      leave the table unchanged. On success the keys present in the payload
      are written, except `id` and `created_at`, which are dropped first:
      the row keeps its id and creation time, and every field whose key is
      absent keeps its value. */
  function PatchTask(s: Store, id: nat, body: Body<Patch>): (r: Reply)
    ensures r.code in {StatusOK, StatusBadRequest, StatusNotFound}
    ensures r.code == StatusNotFound <==> id !in s.rows
    ensures r.code == StatusOK <==> id in s.rows && body.Json? && !HasIllegalStatus(body.payload)
    ensures r.code != StatusOK ==> r.store == s
    ensures r.code == StatusOK ==>
      && r.body.TaskJson?
      && var prev, t, p := s.rows[id], r.body.task, body.payload;
      && r.store.rows == s.rows[id := t]
      && r.store.nextId == s.nextId
      && t.id == prev.id && t.createdAt == prev.createdAt
      && ("title" !in p ==> t.title == prev.title)
      && ("description" !in p ==> t.description == prev.description)
      && ("status" !in p ==> t.status == prev.status)
      && ("due_date" !in p ==> t.dueDate == prev.dueDate)
      && ("status" in p && p["status"].Text? ==> t.status == p["status"].text && IsAllowedStatus(t.status))
      && ("title" in p && p["title"].Text? ==> t.title == p["title"].text)
      && ("description" in p && p["description"].Text? ==> t.description == p["description"].text)
      && ("due_date" in p && p["due_date"].DueDate? ==> t.dueDate == p["due_date"].date)
      && t.updatedAt == s.clock
  {
    if id !in s.rows then Reply(StatusNotFound, ErrorJson(TaskNotFound), s)
    else if body.Malformed? then Reply(StatusBadRequest, BindError, s)
    else if HasIllegalStatus(body.payload) then Reply(StatusBadRequest, ErrorJson(InvalidStatus), s)
    else
      var t := ApplyPatch(s.rows[id], body.payload - ProtectedKeys, s.clock);
      Reply(StatusOK, TaskJson(t), Save(s, id, t))
  }

  /** DELETE /tasks/{id}. Always 204: the row is gone afterwards whether
      or not it was there, and no other row changes. */
  function DeleteTask(s: Store, id: nat): (r: Reply)
    ensures r.code == StatusNoContent && r.body == NoBody
    ensures id !in r.store.rows
    ensures r.store.rows.Keys == s.rows.Keys - {id}
    ensures OthersUnchanged(s, r.store, id)
    ensures r.store.nextId == s.nextId && r.store.clock == s.clock
  {
    Reply(StatusNoContent, NoBody, Store(s.rows - {id}, s.nextId, s.clock))
  }

  /** POST /tasks/{id}/complete. A missing row gives 404 and no change;
      otherwise the row's status becomes `done`, whatever it was, and its
      other fields except the update time are kept. */
  function CompleteTask(s: Store, id: nat): (r: Reply)
    ensures r.code == StatusOK || r.code == StatusNotFound
    ensures r.code == StatusOK <==> id in s.rows
    ensures r.code == StatusNotFound ==> r.store == s
    ensures r.code == StatusOK ==>
      && r.body.TaskJson?
      && var prev, t := s.rows[id], r.body.task;
      && r.store.rows == s.rows[id := t]
      && r.store.nextId == s.nextId
      && t.status == Done
      && t == prev.(status := Done, updatedAt := s.clock)
  {
    if id !in s.rows then Reply(StatusNotFound, ErrorJson(TaskNotFound), s)
    else
      var t := s.rows[id].(status := Done, updatedAt := s.clock);
      Reply(StatusOK, TaskJson(t), Save(s, id, t))
  }

  /** The form's due date: none when the field is empty or does not parse
      as a date (`parseDate` stands for the date parser), never an error. */
  function FormDueDate(text: string, parseDate: string -> Option<Date>): (d: Option<Date>)
    ensures text == "" ==> d == None
    ensures text != "" ==> d == parseDate(text)
  {
    if text == "" then None else parseDate(text)
  }

  /** POST /add (HTML form). Always inserts a row with status `pending`,
      the form's title and description as given (the title is not checked),
      and the parsed due date or none; then redirects to the index page. */
  function CreateTaskFromForm(s: Store, form: Form, parseDate: string -> Option<Date>): (r: Reply)
    ensures r.code == StatusSeeOther && r.body == RedirectTo("/")
    ensures exists t :: r.store.rows == s.rows[s.nextId := t] && t.id == s.nextId
                     && t.status == Pending && t.title == form.title && t.description == form.description
                     && t.dueDate == FormDueDate(form.dueDate, parseDate)
    ensures r.store.nextId == s.nextId + 1
  {
    var ins := Insert(s, form.title, form.description, Pending, FormDueDate(form.dueDate, parseDate));
    assert ins.store.rows == s.rows[s.nextId := ins.body.task];
    Reply(StatusSeeOther, RedirectTo("/"), ins.store)
  }

  /** The routes of the service. */
  datatype Request =
    | CreateReq(body: Body<TaskPayload>)
    | ListReq(query: ListRequest)
    | GetReq(id: nat)
    | ReplaceReq(id: nat, body: Body<TaskPayload>)
    | PatchReq(id: nat, patch: Body<Patch>)
    | DeleteReq(id: nat)
    | CompleteReq(id: nat)
    | FormCreateReq(form: Form)

  /** Routes a request to its handler. The service answers with one of six
      codes; reads never change the table; a delete always leaves the id
      absent; and only the two create routes hand out a new id. */
  function Handle(s: Store, req: Request, parseDate: string -> Option<Date>): (r: Reply)
    ensures r.code in {StatusOK, StatusCreated, StatusNoContent, StatusSeeOther, StatusBadRequest, StatusNotFound}
    ensures req.ListReq? || req.GetReq? ==> r.store == s
    ensures req.DeleteReq? ==> req.id !in r.store.rows
    ensures !(req.CreateReq? || req.FormCreateReq?) ==> r.store.nextId == s.nextId
    ensures r.code == StatusCreated ==> req.CreateReq?
  {
    match req
    case CreateReq(b) => CreateTask(s, b)
    case ListReq(q) => ListHandler(s, q)
    case GetReq(id) => GetTask(s, id)
    case ReplaceReq(id, b) => ReplaceTask(s, id, b)
    case PatchReq(id, b) => PatchTask(s, id, b)
    case DeleteReq(id) => DeleteTask(s, id)
    case CompleteReq(id) => CompleteTask(s, id)
    case FormCreateReq(f) => CreateTaskFromForm(s, f, parseDate)
  }

  /** The table after serving `reqs` in order. */
  function Run(s: Store, reqs: seq<Request>, parseDate: string -> Option<Date>): Store
    decreases |reqs|
  {
    if |reqs| == 0 then s else Run(Handle(s, reqs[0], parseDate).store, reqs[1..], parseDate)
  }
}

=== FILE: pagination.dfy ===
/** Reading and clamping the `page` and `limit` query parameters of the list
    endpoint, the row offset they select, and the window of rows a page
    shows.

    Query parameters are read with Go's `strconv.Atoi`, whose error is
    ignored by the handler: a malformed number reads as 0 and an
    out-of-range one as the nearest 64-bit bound. `Atoi` below models that
    function on a 64-bit platform. */
module Pagination {
  import opened Tasks

  const MaxInt64: int := 0x7FFF_FFFF_FFFF_FFFF
  const MinInt64: int := -0x8000_0000_0000_0000
  const MaxUint64: int := 0xFFFF_FFFF_FFFF_FFFF
  const TwoTo64: int := 0x1_0000_0000_0000_0000

  /** An accumulator at or above this value overflows 64 bits once it is
      multiplied by ten (the cutoff of base-10 `ParseUint`). */
  const Cutoff: int := MaxUint64 / 10 + 1

  const DefaultPage: string := "1"
  const DefaultLimit: string := "20"
  const FallbackLimit: int := 20
  const MaxLimit: int := 100

  /** Outcome of scanning an unsigned decimal number. */
  datatype UintScan = Parsed(n: nat) | SyntaxError | RangeError

  predicate IsDigit(c: char) {
    '0' <= c <= '9'
  }

  function DigitValue(c: char): nat
    requires IsDigit(c)
  {
    c as int - '0' as int
  }

  function DigitChar(d: nat): (c: char)
    requires d < 10
    ensures IsDigit(c) && DigitValue(c) == d
  {
    ('0' as int + d) as char
  }

  /** Scans `s` left to right, appending each digit to `acc`. A non-digit is
      a syntax error; an accumulator that would leave 64 bits stops the scan
      at once with a range error, before later characters are looked at. */
  function ScanDigits(s: string, acc: nat): (r: UintScan)
    requires acc <= MaxUint64
    ensures r.Parsed? ==> acc <= r.n <= MaxUint64
    ensures r.Parsed? ==> forall i :: 0 <= i < |s| ==> IsDigit(s[i])
    decreases |s|
  {
    if |s| == 0 then Parsed(acc)
    else if !IsDigit(s[0]) then SyntaxError
    else if acc >= Cutoff then RangeError
    else
      var next := acc * 10 + DigitValue(s[0]);
      if next > MaxUint64 then RangeError else ScanDigits(s[1..], next)
  }

  /** Base-10 `ParseUint` with a 64-bit result; the empty string is a
      syntax error. A number is read only from a non-empty run of decimal
      digits, and a non-digit anywhere before the scan stops is a syntax
      error. */
  function ParseUint(s: string): (r: UintScan)
    ensures |s| == 0 ==> r == SyntaxError
    ensures r.Parsed? ==> |s| >= 1 && r.n <= MaxUint64 && forall i :: 0 <= i < |s| ==> IsDigit(s[i])
    ensures |s| >= 1 && !IsDigit(s[0]) ==> r == SyntaxError
  {
    if |s| == 0 then SyntaxError else ScanDigits(s, 0)
  }

  /** The value `strconv.Atoi` returns, error discarded: an optional sign
      and decimal digits; 0 on a syntax error; the nearest 64-bit bound when
      the magnitude does not fit. */
  function Atoi(s: string): (n: int)
    ensures MinInt64 <= n <= MaxInt64
    ensures |s| == 0 ==> n == 0
  {
    if |s| == 0 then 0
    else
      var neg := s[0] == '-';
      var digits := if s[0] == '+' || s[0] == '-' then s[1..] else s;
      match ParseUint(digits)
      case SyntaxError => 0
      case RangeError => if neg then MinInt64 else MaxInt64
      case Parsed(u) =>
        var v: int := u;
        if !neg && v > MaxInt64 then MaxInt64
        else if neg && v > MaxInt64 + 1 then MinInt64
        else if neg then -v
        else v
  }

  /** The shortest decimal spelling of `n`. */
  function Decimal(n: nat): (s: string)
    ensures |s| >= 1
    ensures forall i :: 0 <= i < |s| ==> IsDigit(s[i])
  {
    if n < 10 then [DigitChar(n)] else Decimal(n / 10) + [DigitChar(n % 10)]
  }

  /** Scanning one more digit after a prefix that scanned cleanly continues
      from the prefix's value. */
  lemma {:induction false} ScanDigitsSnoc(p: string, c: char, acc: nat)
    requires acc <= MaxUint64
    requires IsDigit(c)
    requires ScanDigits(p, acc).Parsed?
    ensures ScanDigits(p + [c], acc) == ScanDigits([c], ScanDigits(p, acc).n)
    decreases |p|
  {
    if |p| == 0 {
      assert p + [c] == [c];
    } else {
      assert (p + [c])[0] == p[0];
      assert (p + [c])[1..] == p[1..] + [c];
      var next := acc * 10 + DigitValue(p[0]);
      ScanDigitsSnoc(p[1..], c, next);
    }
  }

  lemma {:induction false} ScanDecimal(n: nat)
    requires n <= MaxUint64
    ensures ScanDigits(Decimal(n), 0) == Parsed(n)
  {
    if n < 10 {
      var c := DigitChar(n);
      assert Decimal(n) == [c];
      assert [c][1..] == [];
    } else {
      var c := DigitChar(n % 10);
      ScanDecimal(n / 10);
      ScanDigitsSnoc(Decimal(n / 10), c, 0);
      assert [c][1..] == [];
    }
  }

  /** Round trip: `Atoi` reads the decimal spelling of any non-negative
      64-bit value back as that value. */
  lemma AtoiDecimal(n: nat)
    requires n <= MaxInt64
    ensures Atoi(Decimal(n)) == n
  {
    ScanDecimal(n);
    assert IsDigit(Decimal(n)[0]);
  }

  /** A minus sign negates: the spelling of any magnitude up to 2^63 reads
      back negated, down to the smallest 64-bit value. */
  lemma AtoiNegative(n: nat)
    requires n <= MaxInt64 + 1
    ensures Atoi("-" + Decimal(n)) == -(n as int)
  {
    ScanDecimal(n);
    assert ("-" + Decimal(n))[1..] == Decimal(n);
  }

  /** A magnitude beyond 2^63-1 that still fits 64 unsigned bits saturates:
      unsigned it reads as the largest 64-bit value, negated as the
      smallest. */
  lemma AtoiSaturates(n: nat)
    requires MaxInt64 < n <= MaxUint64
    ensures Atoi(Decimal(n)) == MaxInt64
    ensures Atoi("-" + Decimal(n)) == MinInt64
  {
    ScanDecimal(n);
    assert IsDigit(Decimal(n)[0]);
    assert ("-" + Decimal(n))[1..] == Decimal(n);
  }

  function Pow10(k: nat): (r: nat)
    ensures r >= 1
  {
    if k == 0 then 1 else 10 * Pow10(k - 1)
  }

  lemma {:induction false} Pow10Monotone(j: nat, k: nat)
    requires j <= k
    ensures Pow10(j) <= Pow10(k)
    decreases k
  {
    if j < k {
      Pow10Monotone(j, k - 1);
    }
  }

  /** 10^18 lies below the cutoff, so an 18-digit accumulator never
      overflows on the next digit. */
  lemma Pow10Eighteen()
    ensures Pow10(18) == 1_000_000_000_000_000_000 < Cutoff
  {
    assert Pow10(3) == 1_000;
    assert Pow10(6) == 1_000_000;
    assert Pow10(9) == 1_000_000_000;
    assert Pow10(12) == 1_000_000_000_000;
    assert Pow10(15) == 1_000_000_000_000_000;
  }

  /** After a prefix that scanned cleanly, the scan goes on from the
      prefix's value. */
  lemma {:induction false} ScanDigitsAppend(p: string, t: string, acc: nat)
    requires acc <= MaxUint64
    requires ScanDigits(p, acc).Parsed?
    ensures ScanDigits(p + t, acc) == ScanDigits(t, ScanDigits(p, acc).n)
    decreases |p|
  {
    if |p| == 0 {
      assert p + t == t;
    } else {
      assert (p + t)[0] == p[0];
      assert (p + t)[1..] == p[1..] + t;
      ScanDigitsAppend(p[1..], t, acc * 10 + DigitValue(p[0]));
    }
  }

  /** At most 19 digits never overflow: `k` digits scan to a value below
      10^k. */
  lemma {:induction false} ScanShortDigits(d: string)
    requires |d| <= 19
    requires forall i :: 0 <= i < |d| ==> IsDigit(d[i])
    ensures ScanDigits(d, 0).Parsed? && ScanDigits(d, 0).n < Pow10(|d|)
    decreases |d|
  {
    if |d| > 0 {
      var p, c := d[..|d| - 1], d[|d| - 1];
      assert d == p + [c];
      ScanShortDigits(p);
      ScanDigitsSnoc(p, c, 0);
      Pow10Monotone(|p|, 18);
      Pow10Eighteen();
      assert [c][1..] == [];
    }
  }

  /** Digits led by 2 or more scan to at least twice the power of ten of
      their length. */
  lemma {:induction false} ScanLeadingLowerBound(d: string)
    requires 1 <= |d| <= 19
    requires forall i :: 0 <= i < |d| ==> IsDigit(d[i])
    requires DigitValue(d[0]) >= 2
    ensures ScanDigits(d, 0).Parsed? && ScanDigits(d, 0).n >= 2 * Pow10(|d| - 1)
    decreases |d|
  {
    ScanShortDigits(d);
    var p, c := d[..|d| - 1], d[|d| - 1];
    assert d == p + [c];
    ScanShortDigits(p);
    ScanDigitsSnoc(p, c, 0);
    assert [c][1..] == [];
    if |p| >= 1 {
      ScanLeadingLowerBound(p);
      Pow10Monotone(|p|, 18);
      Pow10Eighteen();
    }
  }

  /** Twenty digits led by 2 or more overflow before the twentieth is
      added, so whatever follows them, even a non-digit, the text reads as
      the nearest 64-bit bound. */
  lemma AtoiOverflowsFirst(digits: string, rest: string)
    requires |digits| == 20 && forall i :: 0 <= i < |digits| ==> IsDigit(digits[i])
    requires DigitValue(digits[0]) >= 2
    ensures Atoi(digits + rest) == MaxInt64
    ensures Atoi("-" + digits + rest) == MinInt64
  {
    var d, c := digits[..19], digits[19];
    var tail := [c] + rest;
    assert digits + rest == d + tail;
    assert ("-" + digits + rest)[1..] == d + tail;
    ScanLeadingLowerBound(d);
    Pow10Eighteen();
    ScanDigitsAppend(d, tail, 0);
  }

  /** A page number too long for 64 bits reads as the largest page, even
      with a trailing non-digit. */
  lemma OverlongPageIsLargest()
    ensures NormalizePage(Some("99999999999999999999x")) == MaxInt64
  {
    AtoiOverflowsFirst("99999999999999999999", "x");
    assert "99999999999999999999" + "x" == "99999999999999999999x";
  }

  /** A non-digit among the first 20 characters after an optional sign,
      with only digits before it, is a syntax error: no overflow can be
      reached first, so the text reads as 0. */
  lemma AtoiStopsAtNonDigit(sign: string, digits: string, c: char, rest: string)
    requires sign == "" || sign == "+" || sign == "-"
    requires |digits| <= 19 && forall i :: 0 <= i < |digits| ==> IsDigit(digits[i])
    requires !IsDigit(c)
    requires sign == "" && digits == [] ==> c != '+' && c != '-'
    ensures Atoi(sign + digits + [c] + rest) == 0
  {
    var s := sign + digits + [c] + rest;
    var tail := digits + ([c] + rest);
    assert s == sign + tail;
    if sign == "" {
      assert s == tail;
      assert s[0] == if |digits| > 0 then digits[0] else c;
    } else {
      assert s[1..] == tail;
    }
    ScanShortDigits(digits);
    ScanDigitsAppend(digits, [c] + rest, 0);
  }

  /** gin's `DefaultQuery`: the parameter's text when it is present (even
      when empty), the default when it is absent. */
  function QueryOr(param: Option<string>, default: string): (s: string)
    ensures param.Some? ==> s == param.value
    ensures param.None? ==> s == default
  {
    match param
    case Some(v) => v
    case None => default
  }

  /** The page number the list handler uses: the parsed `page` parameter
      when it is at least 1, otherwise 1. */
  function NormalizePage(param: Option<string>): (page: int)
    ensures 1 <= page <= MaxInt64
    ensures Atoi(QueryOr(param, DefaultPage)) >= 1 ==> page == Atoi(QueryOr(param, DefaultPage))
    ensures Atoi(QueryOr(param, DefaultPage)) < 1 ==> page == 1
  {
    var n := Atoi(QueryOr(param, DefaultPage));
    if n < 1 then 1 else n
  }

  /** The page size the list handler uses: the parsed `limit` parameter
      when it lies in [1, 100], otherwise 20. */
  function NormalizeLimit(param: Option<string>): (limit: int)
    ensures 1 <= limit <= MaxLimit
    ensures 1 <= Atoi(QueryOr(param, DefaultLimit)) <= MaxLimit ==> limit == Atoi(QueryOr(param, DefaultLimit))
    ensures !(1 <= Atoi(QueryOr(param, DefaultLimit)) <= MaxLimit) ==> limit == FallbackLimit
  {
    var n := Atoi(QueryOr(param, DefaultLimit));
    if n < 1 || n > MaxLimit then FallbackLimit else n
  }

  /** A missing, empty, malformed or non-positive page is page 1; a
      well-formed page of at least 1 is kept. */
  lemma NormalizePageExamples(n: nat)
    ensures NormalizePage(None) == 1
    ensures NormalizePage(Some("")) == 1
    ensures NormalizePage(Some("x")) == 1
    ensures NormalizePage(Some("-" + Decimal(n))) == 1
    ensures 1 <= n <= MaxInt64 ==> NormalizePage(Some(Decimal(n))) == n
  {
    assert DefaultPage == Decimal(1);
    AtoiDecimal(1);
    var s := "-" + Decimal(n);
    assert s[1..] == Decimal(n);
    if n <= MaxInt64 {
      ScanDecimal(n);
      AtoiDecimal(n);
    }
  }

  /** A missing, empty, malformed, zero or too-large limit is 20; a
      well-formed limit in [1, 100] is kept. */
  lemma NormalizeLimitExamples(n: nat)
    ensures NormalizeLimit(None) == 20
    ensures NormalizeLimit(Some("")) == 20
    ensures NormalizeLimit(Some("x")) == 20
    ensures NormalizeLimit(Some(Decimal(0))) == 20
    ensures NormalizeLimit(Some(Decimal(101))) == 20
    ensures 1 <= n <= MaxLimit ==> NormalizeLimit(Some(Decimal(n))) == n
  {
    assert DefaultLimit == Decimal(20);
    AtoiDecimal(20);
    AtoiDecimal(0);
    AtoiDecimal(101);
    if n <= MaxLimit {
      AtoiDecimal(n);
    }
  }

  /** Normalisation is idempotent: feeding the page and limit the handler
      settled on back in as query text yields the same page and limit. */
  lemma NormalizeIdempotent(pageParam: Option<string>, limitParam: Option<string>)
    ensures NormalizePage(Some(Decimal(NormalizePage(pageParam)))) == NormalizePage(pageParam)
    ensures NormalizeLimit(Some(Decimal(NormalizeLimit(limitParam)))) == NormalizeLimit(limitParam)
  {
    AtoiDecimal(NormalizePage(pageParam));
    AtoiDecimal(NormalizeLimit(limitParam));
  }

  /** The offset of the first row of `page` when pages hold `limit` rows:
      the rows of all earlier pages, counted without overflow. */
  function Offset(page: int, limit: nat): (off: nat)
    requires page >= 1
    ensures off == 0 <==> page == 1 || limit == 0
    ensures page > 1 ==> off >= limit
    decreases page
  {
    if page == 1 then 0 else Offset(page - 1, limit) + limit
  }

  /** The offset is the handler's product `(page - 1) * limit`, taken in
      unbounded integers. */
  lemma {:induction false} OffsetIsProduct(page: int, limit: nat)
    requires page >= 1
    ensures Offset(page, limit) == (page - 1) * limit
    decreases page
  {
    if page > 1 {
      OffsetIsProduct(page - 1, limit);
    }
  }

  /** Two's-complement wrap-around of an integer into 64 bits. */
  function Wrap64(x: int): (r: int)
    ensures MinInt64 <= r <= MaxInt64
    ensures MinInt64 <= x <= MaxInt64 ==> r == x
  {
    (x - MinInt64) % TwoTo64 + MinInt64
  }

  /** The offset as the handler computes it: `(page - 1) * limit` in Go's
      64-bit `int`, which wraps around for very large pages. It agrees with
      the true offset exactly as long as that fits in 64 bits. */
  function OffsetAsWritten(page: int, limit: int): (off: int)
    requires 1 <= page <= MaxInt64 && 1 <= limit <= MaxLimit
    ensures MinInt64 <= off <= MaxInt64
    ensures Offset(page, limit) <= MaxInt64 ==> off == Offset(page, limit)
  {
    Wrap64(Offset(page, limit))
  }

  lemma WrapExamples()
    ensures Wrap64(184467440737095516120) == -40
    ensures Wrap64(18446744073709551680) == 64
  {
  }

  /** The largest page number is accepted (it is at least 1), but its offset
      wraps to -40; and page 288230376151711746 of 64-row pages wraps to the
      offset of page 2, so two different pages show the same rows. */
  lemma OffsetAsWrittenWraps()
    ensures NormalizePage(Some(Decimal(MaxInt64))) == MaxInt64
    ensures OffsetAsWritten(MaxInt64, NormalizeLimit(None)) == -40
    ensures NormalizeLimit(Some(Decimal(64))) == 64
    ensures OffsetAsWritten(288230376151711746, 64) == OffsetAsWritten(2, 64) == 64
  {
    AtoiDecimal(MaxInt64);
    NormalizeLimitExamples(64);
    OffsetIsProduct(MaxInt64, 20);
    OffsetIsProduct(288230376151711746, 64);
    WrapExamples();
  }

  /** Distinct pages start at least one page apart, so no two pages share a
      row position; this is what the wrapping offset above breaks. */
  lemma {:induction false} PagesDoNotOverlap(p: int, q: int, limit: nat)
    requires 1 <= p < q
    ensures Offset(p, limit) + limit <= Offset(q, limit)
    decreases q - p
  {
    if q > p + 1 {
      PagesDoNotOverlap(p, q - 1, limit);
    }
  }

  /** The page on which row position `i` is shown when pages hold `limit`
      rows: the one whose offset is at most `i` and within one page of it. */
  function PageOf(i: nat, limit: nat): (p: nat)
    requires limit >= 1
    ensures 1 <= p <= i + 1
    ensures Offset(p, limit) <= i < Offset(p, limit) + limit
    decreases i
  {
    if i < limit then 1
    else
      PageOf(i - limit, limit) + 1
  }

  function Min(a: int, b: int): int {
    if a <= b then a else b
  }

  /** The rows a page shows: at most `limit` consecutive rows of `s`,
      starting at position `offset`; none when the offset is past the end. */
  function Window<T>(s: seq<T>, offset: nat, limit: nat): (r: seq<T>)
    ensures |r| == if offset >= |s| then 0 else Min(limit, |s| - offset)
    ensures forall i :: 0 <= i < |r| ==> r[i] == s[offset + i]
  {
    if offset >= |s| then [] else s[offset..Min(offset + limit, |s|)]
  }

  /** Page `p` followed by page `p + 1` is the double-length window starting
      at page `p`: consecutive pages tile the row sequence without gaps. */
  lemma PagesTile<T>(s: seq<T>, p: int, limit: nat)
    requires p >= 1
    ensures Window(s, Offset(p, limit), limit) + Window(s, Offset(p + 1, limit), limit)
            == Window(s, Offset(p, limit), 2 * limit)
  {
    var a := Window(s, Offset(p, limit), limit);
    var b := Window(s, Offset(p + 1, limit), limit);
    var c := Window(s, Offset(p, limit), 2 * limit);
    assert |a + b| == |c|;
    forall i | 0 <= i < |c|
      ensures (a + b)[i] == c[i]
    {
      if i < |a| {
        assert (a + b)[i] == a[i];
      } else {
        assert (a + b)[i] == b[i - |a|];
        assert |a| == limit;
      }
    }
  }
}

=== FILE: properties.dfy ===
/** Properties relating the handlers to each other and to the table
    invariant: every handler keeps the table valid, reads see earlier
    writes, and the frame and idempotence promises of the service. */
module HandlerProperties {
  import opened Tasks
  import opened Pagination
  import opened Query
  import opened Handlers

  lemma CreatePreservesValid(s: Store, body: Body<TaskPayload>)
    requires Valid(s)
    ensures Valid(CreateTask(s, body).store)
  {
  }

  lemma ReplacePreservesValid(s: Store, id: nat, body: Body<TaskPayload>)
    requires Valid(s)
    ensures Valid(ReplaceTask(s, id, body).store)
  {
  }

  lemma PatchPreservesValid(s: Store, id: nat, body: Body<Patch>)
    requires Valid(s)
    ensures Valid(PatchTask(s, id, body).store)
  {
  }

  lemma CompletePreservesValid(s: Store, id: nat)
    requires Valid(s)
    ensures Valid(CompleteTask(s, id).store)
  {
  }

  lemma DeletePreservesValid(s: Store, id: nat)
    requires Valid(s)
    ensures Valid(DeleteTask(s, id).store)
  {
  }

  lemma FormCreatePreservesValid(s: Store, form: Form, parseDate: string -> Option<Date>)
    requires Valid(s)
    ensures Valid(CreateTaskFromForm(s, form, parseDate).store)
  {
  }

  /** Every handler keeps the table valid; in particular every stored status
      stays in the allowed set. */
  lemma HandlePreservesValid(s: Store, req: Request, parseDate: string -> Option<Date>)
    requires Valid(s)
    ensures Valid(Handle(s, req, parseDate).store)
  {
    match req
    case CreateReq(b) => CreatePreservesValid(s, b);
    case ListReq(q) =>
    case GetReq(id) =>
    case ReplaceReq(id, b) => ReplacePreservesValid(s, id, b);
    case PatchReq(id, b) => PatchPreservesValid(s, id, b);
    case DeleteReq(id) => DeletePreservesValid(s, id);
    case CompleteReq(id) => CompletePreservesValid(s, id);
    case FormCreateReq(f) => FormCreatePreservesValid(s, f, parseDate);
  }

  /** Any sequence of requests served from a valid table leaves it valid. */
  lemma {:induction false} RunPreservesValid(s: Store, reqs: seq<Request>, parseDate: string -> Option<Date>)
    requires Valid(s)
    ensures Valid(Run(s, reqs, parseDate))
    decreases |reqs|
  {
    if |reqs| > 0 {
      HandlePreservesValid(s, reqs[0], parseDate);
      RunPreservesValid(Handle(s, reqs[0], parseDate).store, reqs[1..], parseDate);
    }
  }

  /** Every table reachable from a fresh one is valid. */
  lemma ReachableIsValid(reqs: seq<Request>, parseDate: string -> Option<Date>)
    ensures Valid(Run(EmptyStore, reqs, parseDate))
  {
    EmptyStoreValid();
    RunPreservesValid(EmptyStore, reqs, parseDate);
  }

  /** A row read back after a successful create is the created row, under a
      fresh id, with status `pending` when the request gave none. */
  lemma CreateThenGet(s: Store, body: Body<TaskPayload>)
    requires Valid(s)
    requires CreateTask(s, body).code == StatusCreated
    ensures var c := CreateTask(s, body);
      && c.body.task.id !in s.rows
      && GetTask(c.store, c.body.task.id) == Reply(StatusOK, TaskJson(c.body.task), c.store)
      && (body.payload.status == "" ==> c.body.task.status == Pending)
  {
  }

  /** Once a delete has answered, reading the id gives 404. */
  lemma DeleteThenGet(s: Store, id: nat)
    ensures GetTask(DeleteTask(s, id).store, id).code == StatusNotFound
  {
  }

  /** Deleting an id that has no row still answers 204 and changes nothing. */
  lemma DeleteMissingIsNoContent(s: Store, id: nat)
    requires id !in s.rows
    ensures DeleteTask(s, id) == Reply(StatusNoContent, NoBody, s)
  {
    assert s.rows - {id} == s.rows;
  }

  /** The table's contents with update times forgotten. */
  ghost function Content(s: Store): map<nat, Task> {
    map k | k in s.rows :: s.rows[k].(updatedAt := 0)
  }

  /** Completing twice is completing once: the second call answers 200 with
      the same row and leaves the same contents, update times aside. */
  lemma CompleteIdempotent(s: Store, id: nat)
    requires id in s.rows
    ensures var once := CompleteTask(s, id);
            var twice := CompleteTask(once.store, id);
      && twice.code == once.code == StatusOK
      && twice.body.task.(updatedAt := 0) == once.body.task.(updatedAt := 0)
      && Content(twice.store) == Content(once.store)
  {
    var once := CompleteTask(s, id);
    var twice := CompleteTask(once.store, id);
    assert twice.store.rows == once.store.rows[id := twice.body.task];
    assert Content(twice.store) == Content(once.store);
  }

  /** Completion touches only the completed row. */
  lemma CompleteFrame(s: Store, id: nat)
    ensures OthersUnchanged(s, CompleteTask(s, id).store, id)
  {
  }

  /** Replace and patch touch only the addressed row. */
  lemma ReplaceAndPatchFrame(s: Store, id: nat, b: Body<TaskPayload>, p: Body<Patch>)
    ensures OthersUnchanged(s, ReplaceTask(s, id, b).store, id)
    ensures OthersUnchanged(s, PatchTask(s, id, p).store, id)
  {
  }

  /** A patch naming `id` or `created_at` behaves exactly as the same patch
      without them. */
  lemma PatchIgnoresProtectedKeys(s: Store, id: nat, p: Patch)
    ensures PatchTask(s, id, Json(p)) == PatchTask(s, id, Json(p - ProtectedKeys))
  {
    assert (p - ProtectedKeys) - ProtectedKeys == p - ProtectedKeys;
  }

  /** The asymmetry of replace: an empty status keeps the old one, while an
      empty description and a missing due date overwrite the old values. */
  lemma ReplaceStatusAsymmetry(s: Store, id: nat, title: string)
    requires id in s.rows && title != ""
    ensures var r := ReplaceTask(s, id, Json(TaskPayload(title, "", "", None)));
      && r.code == StatusOK
      && r.body.task.status == s.rows[id].status
      && r.body.task.description == ""
      && r.body.task.dueDate == None
  {
  }

  /** The JSON create refuses an empty title, while the form create stores
      it: a non-empty title is not an invariant of the table. */
  lemma FormAcceptsEmptyTitle(s: Store, parseDate: string -> Option<Date>)
    ensures CreateTask(s, Json(TaskPayload("", "", "", None))).code == StatusBadRequest
    ensures var r := CreateTaskFromForm(s, Form("", "", ""), parseDate);
      && s.nextId in r.store.rows
      && r.store.rows[s.nextId].title == ""
      && r.store.rows[s.nextId].status == Pending
      && r.store.rows[s.nextId].dueDate == None
  {
  }

  /** A patch can clear the title as well: the patch path never checks it. */
  lemma PatchCanClearTitle(s: Store, id: nat)
    requires id in s.rows
    ensures var r := PatchTask(s, id, Json(map["title" := Text("")]));
      r.code == StatusOK && r.store.rows[id].title == ""
  {
  }

  /** A patch whose status is the empty text is refused, unlike a replace,
      which reads the empty status as "keep the current one". */
  lemma PatchRefusesEmptyStatus(s: Store, id: nat)
    requires id in s.rows
    ensures PatchTask(s, id, Json(map["status" := Text("")])) ==
            Reply(StatusBadRequest, ErrorJson(InvalidStatus), s)
  {
    AllowedStatusesShape();
  }
}

=== FILE: query.dfy ===
/** The list query: the optional exact-status and substring filters, the
    count of matching rows, the newest-first order, and the page window. */
module Query {
  import opened Tasks
  import opened Pagination

  /** The two filters of the list endpoint. A missing query parameter reads
      as the empty string, and an empty field filters nothing. */
  datatype Filter = Filter(status: string, q: string)

  /** `q` occurs in `text` starting at position `i`. */
  ghost predicate OccursAt(q: string, text: string, i: int) {
    0 <= i && i + |q| <= |text| && text[i..i + |q|] == q
  }

  /** Substring test: `q` is a prefix of `text` or occurs in its tail. The
      empty text is found everywhere, and nothing longer than `text` is
      found in it. */
  function Contains(text: string, q: string): (r: bool)
    ensures |q| == 0 ==> r
    ensures r ==> |q| <= |text|
    decreases |text|
  {
    (|q| <= |text| && text[..|q|] == q) || (|text| > 0 && Contains(text[1..], q))
  }

  /** Whatever the recursive test finds occurs at some position. */
  lemma {:induction false} ContainsSound(text: string, q: string)
    requires Contains(text, q)
    ensures exists i :: OccursAt(q, text, i)
    decreases |text|
  {
    if |q| <= |text| && text[..|q|] == q {
      assert OccursAt(q, text, 0);
    } else {
      ContainsSound(text[1..], q);
      var i :| OccursAt(q, text[1..], i);
      assert text[1..][i..i + |q|] == text[i + 1..i + 1 + |q|];
      assert OccursAt(q, text, i + 1);
    }
  }

  /** The recursive test finds every occurrence. */
  lemma {:induction false} ContainsComplete(text: string, q: string, i: int)
    requires OccursAt(q, text, i)
    ensures Contains(text, q)
    decreases |text|
  {
    if i == 0 {
      assert text[..|q|] == text[i..i + |q|];
    } else {
      assert text[1..][i - 1..i - 1 + |q|] == text[i..i + |q|];
      ContainsComplete(text[1..], q, i - 1);
    }
  }

  /** The recursive test agrees with the positional definition of a
      substring, in both directions. */
  lemma ContainsIff(text: string, q: string)
    ensures Contains(text, q) <==> exists i :: OccursAt(q, text, i)
  {
    if Contains(text, q) {
      ContainsSound(text, q);
    }
    if exists i :: OccursAt(q, text, i) {
      var i :| OccursAt(q, text, i);
      ContainsComplete(text, q, i);
    }
  }

  /** The filter stated with positional substrings. */
  ghost predicate MatchesSpec(f: Filter, t: Task) {
    && (f.status == "" || t.status == f.status)
    && (f.q == "" || (exists i :: OccursAt(f.q, t.title, i)) || (exists i :: OccursAt(f.q, t.description, i)))
  }

  /** The row filter of the list endpoint: the exact status when one is
      given, and the search text inside the title or the description when
      one is given. It agrees with the positional statement above. */
  function Matches(f: Filter, t: Task): (r: bool)
    ensures r <==> MatchesSpec(f, t)
  {
    ContainsIff(t.title, f.q);
    ContainsIff(t.description, f.q);
    && (f.status == "" || t.status == f.status)
    && (f.q == "" || Contains(t.title, f.q) || Contains(t.description, f.q))
  }

  /** Ids below `k` whose rows pass the filter. */
  ghost function MatchingIdsBelow(rows: map<nat, Task>, f: Filter, k: nat): set<nat> {
    set j | j in rows && j < k && Matches(f, rows[j])
  }

  /** Ids of all rows of the store that pass the filter. */
  ghost function MatchingIds(s: Store, f: Filter): set<nat> {
    set j | j in s.rows && Matches(f, s.rows[j])
  }

  lemma MatchingIdsBelowStep(rows: map<nat, Task>, f: Filter, k: nat)
    ensures k in rows && Matches(f, rows[k]) ==>
              |MatchingIdsBelow(rows, f, k + 1)| == |MatchingIdsBelow(rows, f, k)| + 1
    ensures !(k in rows && Matches(f, rows[k])) ==>
              |MatchingIdsBelow(rows, f, k + 1)| == |MatchingIdsBelow(rows, f, k)|
  {
    if k in rows && Matches(f, rows[k]) {
      assert MatchingIdsBelow(rows, f, k + 1) == MatchingIdsBelow(rows, f, k) + {k};
    } else {
      assert MatchingIdsBelow(rows, f, k + 1) == MatchingIdsBelow(rows, f, k);
    }
  }

  /** The rows with ids below `k` that pass the filter, highest id first:
      exactly as many rows as there are matching ids, each one a matching
      row of the table, and every matching row among them. */
  function Collect(rows: map<nat, Task>, f: Filter, k: nat): (r: seq<Task>)
    ensures |r| == |MatchingIdsBelow(rows, f, k)|
    ensures |r| <= k
    ensures forall t :: t in r ==> t in rows.Values && Matches(f, t)
    ensures forall j :: j in rows && j < k && Matches(f, rows[j]) ==> rows[j] in r
  {
    if k == 0 then
      assert MatchingIdsBelow(rows, f, 0) == {};
      []
    else
      var rest := Collect(rows, f, k - 1);
      MatchingIdsBelowStep(rows, f, k - 1);
      if k - 1 in rows && Matches(f, rows[k - 1]) then [rows[k - 1]] + rest else rest
  }

  /** Rows ordered by `created_at`, newest first. */
  ghost predicate NewestFirst(s: seq<Task>) {
    forall i, j :: 0 <= i < j < |s| ==> s[i].createdAt >= s[j].createdAt
  }

  /** The head of a newest-first sequence is at least as new as the rest. */
  lemma HeadIsNewest(s: seq<Task>)
    requires NewestFirst(s) && |s| > 0
    ensures forall x :: x in s[1..] ==> x.createdAt <= s[0].createdAt
  {
    forall x | x in s[1..]
      ensures x.createdAt <= s[0].createdAt
    {
      var i :| 0 <= i < |s[1..]| && s[1..][i] == x;
      assert x == s[i + 1];
    }
  }

  /** A row at least as new as every row of a newest-first sequence may
      precede it. */
  lemma NewestFirstCons(x: Task, rest: seq<Task>)
    requires NewestFirst(rest)
    requires forall y :: y in rest ==> y.createdAt <= x.createdAt
    ensures NewestFirst([x] + rest)
  {
    var r := [x] + rest;
    forall i, j | 0 <= i < j < |r|
      ensures r[i].createdAt >= r[j].createdAt
    {
      if i > 0 {
        assert r[i] == rest[i - 1] && r[j] == rest[j - 1];
      } else {
        assert r[j] == rest[j - 1] && r[j] in rest;
      }
    }
  }

  /** Inserts `t` into a newest-first sequence at its place. */
  function InsertNewestFirst(t: Task, s: seq<Task>): (r: seq<Task>)
    requires NewestFirst(s)
    ensures NewestFirst(r)
    ensures multiset(r) == multiset(s) + multiset{t}
    ensures forall x :: x in r ==> x == t || x in s
  {
    if |s| == 0 then [t]
    else if t.createdAt >= s[0].createdAt then [t] + s
    else
      var rest := InsertNewestFirst(t, s[1..]);
      HeadIsNewest(s);
      NewestFirstCons(s[0], rest);
      assert s == [s[0]] + s[1..];
      [s[0]] + rest
  }

  /** Orders rows by `created_at`, newest first: a permutation of the
      input that is newest-first. */
  function SortNewestFirst(s: seq<Task>): (r: seq<Task>)
    ensures NewestFirst(r)
    ensures multiset(r) == multiset(s)
  {
    if |s| == 0 then []
    else
      assert s == [s[0]] + s[1..];
      InsertNewestFirst(s[0], SortNewestFirst(s[1..]))
  }

  /** A window of a newest-first sequence is newest-first, and holds only
      elements of the sequence. */
  lemma WindowOfNewestFirst(s: seq<Task>, offset: nat, limit: nat)
    requires NewestFirst(s)
    ensures NewestFirst(Window(s, offset, limit))
    ensures forall x :: x in Window(s, offset, limit) ==> x in s
  {
    var w := Window(s, offset, limit);
    forall x | x in w
      ensures x in s
    {
      var i :| 0 <= i < |w| && w[i] == x;
      assert x == s[offset + i];
    }
  }

  /** In a valid store every id lies below the counter, so counting the ids
      below the counter counts them all. */
  lemma MatchingIdsAllBelow(s: Store, f: Filter)
    ensures Valid(s) ==> MatchingIds(s, f) == MatchingIdsBelow(s.rows, f, s.nextId)
  {
  }

  /** The query parameters of the list endpoint. */
  datatype ListRequest = ListRequest(page: Option<string>, limit: Option<string>, status: string, q: string)

  /** The list response: the page and limit in force, the number of rows
      matching the filters, and the rows of the page. */
  datatype Listing = Listing(page: int, limit: int, total: nat, tasks: seq<Task>)

  function FilterOf(req: ListRequest): Filter {
    Filter(req.status, req.q)
  }

  /** The list query. The page and limit are clamped; `total` counts every
      matching row of the table whatever the page; the page holds at most
      `limit` rows, each a matching row of the table, newest first. */
  function ListTasks(s: Store, req: ListRequest): (r: Listing)
    ensures r.page == NormalizePage(req.page) && r.limit == NormalizeLimit(req.limit)
    ensures 1 <= r.page && 1 <= r.limit <= MaxLimit
    ensures |r.tasks| <= r.limit
    ensures forall t :: t in r.tasks ==> t in s.rows.Values && Matches(FilterOf(req), t)
    ensures NewestFirst(r.tasks)
    ensures Valid(s) ==> r.total == |MatchingIds(s, FilterOf(req))|
  {
    var page := NormalizePage(req.page);
    var limit := NormalizeLimit(req.limit);
    var matching := Collect(s.rows, FilterOf(req), s.nextId);
    var ordered := SortNewestFirst(matching);
    var tasks := Window(ordered, Offset(page, limit), limit);
    WindowOfNewestFirst(ordered, Offset(page, limit), limit);
    assert forall t :: t in tasks ==> t in multiset(matching);
    MatchingIdsAllBelow(s, FilterOf(req));
    Listing(page, limit, |matching|, tasks)
  }

  /** The total depends on the filters only, never on the page or limit. */
  lemma ListTotalIgnoresWindow(s: Store, a: ListRequest, b: ListRequest)
    requires a.status == b.status && a.q == b.q
    ensures ListTasks(s, a).total == ListTasks(s, b).total
  {
  }

  /** The rows of a list page are the window of the ordered matching rows
      selected by the clamped page and limit. */
  lemma ListTasksIsWindow(s: Store, req: ListRequest)
    ensures ListTasks(s, req).tasks ==
      Window(SortNewestFirst(Collect(s.rows, FilterOf(req), s.nextId)),
             Offset(NormalizePage(req.page), NormalizeLimit(req.limit)), NormalizeLimit(req.limit))
  {
  }

  /** In a valid table the ordered matching rows are exactly the rows of
      the table that pass the filter, and as many as the listing's total. */
  lemma OrderedAreMatching(s: Store, f: Filter)
    requires Valid(s)
    ensures var ordered := SortNewestFirst(Collect(s.rows, f, s.nextId));
      && |ordered| == |Collect(s.rows, f, s.nextId)|
      && forall t :: t in ordered <==> t in s.rows.Values && Matches(f, t)
  {
    var matching := Collect(s.rows, f, s.nextId);
    var ordered := SortNewestFirst(matching);
    assert |ordered| == |multiset(ordered)| == |multiset(matching)| == |matching|;
    forall t
      ensures t in ordered <==> t in s.rows.Values && Matches(f, t)
    {
      assert t in ordered <==> t in multiset(ordered);
      assert t in matching <==> t in multiset(matching);
      if t in s.rows.Values && Matches(f, t) {
        var j :| j in s.rows && s.rows[j] == t;
      }
    }
  }

  /** Which rows a page holds, stated without the list computation: of all
      matching rows of the table in newest-first order, as many as the
      total, the page is the window at the clamped page's offset of the
      clamped limit's length. */
  lemma ListPageIsWindowOfAllMatches(s: Store, req: ListRequest)
    requires Valid(s)
    ensures var r := ListTasks(s, req);
      && r.page == NormalizePage(req.page) && r.limit == NormalizeLimit(req.limit)
      && exists ordered ::
        && NewestFirst(ordered) && |ordered| == r.total
        && (forall t :: t in ordered <==> t in s.rows.Values && Matches(FilterOf(req), t))
        && r.tasks == Window(ordered, Offset(r.page, r.limit), r.limit)
  {
    var ordered := SortNewestFirst(Collect(s.rows, FilterOf(req), s.nextId));
    OrderedAreMatching(s, FilterOf(req));
    ListTasksIsWindow(s, req);
    var r := ListTasks(s, req);
    assert r.tasks == Window(ordered, Offset(r.page, r.limit), r.limit);
  }

  /** Position `i` of a sequence is shown on page `PageOf(i, limit)`. */
  lemma PageOfPosition<T>(s: seq<T>, i: nat, limit: nat)
    requires i < |s| && limit >= 1
    ensures s[i] in Window(s, Offset(PageOf(i, limit), limit), limit)
  {
    var off := Offset(PageOf(i, limit), limit);
    assert Window(s, off, limit)[i - off] == s[i];
  }

  /** A matching row of a valid table is among the ordered matching rows,
      and there are no more of those than ids handed out. */
  lemma MatchIsOrdered(s: Store, f: Filter, k: nat)
    requires Valid(s)
    requires k in s.rows && Matches(f, s.rows[k])
    ensures s.rows[k] in SortNewestFirst(Collect(s.rows, f, s.nextId))
    ensures |SortNewestFirst(Collect(s.rows, f, s.nextId))| <= s.nextId
  {
    var matching := Collect(s.rows, f, s.nextId);
    var ordered := SortNewestFirst(matching);
    assert s.rows[k] in multiset(ordered);
    assert |ordered| == |multiset(ordered)| == |multiset(matching)| == |matching|;
  }

  /** Every matching row is shown on some page: paging through the list
      with any limit misses nothing. */
  lemma EveryMatchOnSomePage(s: Store, f: Filter, limitParam: Option<string>, k: nat)
    requires Valid(s) && s.nextId <= MaxInt64
    requires k in s.rows && Matches(f, s.rows[k])
    ensures exists p :: 1 <= p <= MaxInt64 &&
              s.rows[k] in ListTasks(s, ListRequest(Some(Decimal(p)), limitParam, f.status, f.q)).tasks
  {
    var ordered := SortNewestFirst(Collect(s.rows, f, s.nextId));
    MatchIsOrdered(s, f, k);
    var i :| 0 <= i < |ordered| && ordered[i] == s.rows[k];
    var limit := NormalizeLimit(limitParam);
    PageOfPosition(ordered, i, limit);
    var p := PageOf(i, limit);
    var req := ListRequest(Some(Decimal(p)), limitParam, f.status, f.q);
    PageParamReadsBack(p, limitParam, f);
    ListTasksIsWindow(s, req);
    assert s.rows[k] in ListTasks(s, req).tasks;
  }

  lemma PageParamReadsBack(p: nat, limitParam: Option<string>, f: Filter)
    requires 1 <= p <= MaxInt64
    ensures var req := ListRequest(Some(Decimal(p)), limitParam, f.status, f.q);
      NormalizePage(req.page) == p && FilterOf(req) == f && NormalizeLimit(req.limit) == NormalizeLimit(limitParam)
  {
    AtoiDecimal(p);
  }
}

=== FILE: scenarios.dfy ===
/** Request sequences worked end to end on a fresh table. */
module Scenarios {
  import opened Tasks
  import opened Pagination
  import opened Query
  import opened Handlers

  /** Create "Buy milk", complete it, list the done tasks: the row gets id 1
      and status `pending`, completing makes it `done`, and the listing
      finds exactly that row. */
  lemma BuyMilk()
    ensures var created := CreateTask(EmptyStore, Json(TaskPayload("Buy milk", "", "", None)));
      && created.code == StatusCreated
      && created.body.task.id == 1
      && created.body.task.status == Pending
      && var completed := CompleteTask(created.store, 1);
      && completed.code == StatusOK
      && completed.body.task.status == Done
      && var listed := ListHandler(completed.store, ListRequest(None, None, Done, ""));
      && listed.body.listing.total == 1
      && listed.body.listing.tasks == [completed.body.task]
  {
    var created := CreateTask(EmptyStore, Json(TaskPayload("Buy milk", "", "", None)));
    var completed := CompleteTask(created.store, 1);
    var s := completed.store;
    var t := completed.body.task;
    assert s.rows == map[1 := t] && s.nextId == 2;
    var f := Filter(Done, "");
    assert Collect(s.rows, f, 0) == [];
    assert Collect(s.rows, f, 1) == [];
    assert Collect(s.rows, f, 2) == [t];
    assert SortNewestFirst([t]) == [t];
    NormalizePageExamples(1);
    NormalizeLimitExamples(20);
    assert Offset(1, 20) == 0;
  }

  /** A patch with the status "bogus" is refused with 400 and the row is
      left as it was. */
  lemma PatchBogusStatus(s: Store, id: nat)
    requires id in s.rows
    ensures var r := PatchTask(s, id, Json(map["status" := Text("bogus")]));
      r.code == StatusBadRequest && r.store == s
  {
  }
}

=== FILE: tasks.dfy ===
/** The task entity, the closed set of legal statuses, and the abstract task
    table that the handlers read and write.

    The relational table is modelled as a map from id to row, an id counter
    standing for the table's auto-increment key, and a logical clock standing
    for the `created_at`/`updated_at` timestamps. */
module Tasks {

  datatype Option<+T> = None | Some(value: T)

  /** A calendar day. Due dates are only stored and echoed back, never
      compared, so the fields carry no further meaning in the model. */
  datatype Date = Date(year: int, month: int, day: int)

  /** One row of the task table. `status` is kept as the raw string the
      handlers write, so that the validator's job is visible. */
  datatype Task = Task(
    id: nat,
    title: string,
    description: string,
    status: string,
    dueDate: Option<Date>,
    createdAt: nat,
    updatedAt: nat)

  const Pending: string := "pending"
  const InProgress: string := "in_progress"
  const Done: string := "done"

  /** The set of legal status strings, built once and never changed. */
  const AllowedStatuses: set<string> := {Pending, InProgress, Done}

  predicate IsAllowedStatus(s: string) {
    s in AllowedStatuses
  }

  /** The same three states as a closed enumeration: the typed reference
      against which the string set is checked. */
  datatype Status = PendingStatus | InProgressStatus | DoneStatus

  function StatusName(st: Status): (s: string)
    ensures IsAllowedStatus(s)
  {
    match st
    case PendingStatus => Pending
    case InProgressStatus => InProgress
    case DoneStatus => Done
  }

  /** Reads a status string into the enumeration; exactly the members of
      the allowed set are accepted, and each reads back to its own name. */
  function ParseStatus(s: string): (r: Option<Status>)
    ensures r.Some? <==> IsAllowedStatus(s)
    ensures r.Some? ==> StatusName(r.value) == s
  {
    if s == Pending then Some(PendingStatus)
    else if s == InProgress then Some(InProgressStatus)
    else if s == Done then Some(DoneStatus)
    else None
  }

  /** Naming a status and reading it back gives the same status, so the
      three names are pairwise distinct. */
  lemma StatusNameRoundTrip(st: Status)
    ensures ParseStatus(StatusName(st)) == Some(st)
  {
  }

  /** The allowed set has exactly three members and the empty string is not
      one of them. */
  lemma AllowedStatusesShape()
    ensures |AllowedStatuses| == 3
    ensures !IsAllowedStatus("")
    ensures forall s :: IsAllowedStatus(s) <==> ParseStatus(s).Some?
  {
    assert Pending != InProgress && Pending != Done && InProgress != Done;
  }

  /** The task table. `nextId` is the key the next insert receives and
      `clock` the timestamp the next mutation is stamped with. */
  datatype Store = Store(rows: map<nat, Task>, nextId: nat, clock: nat)

  /** A fresh, empty table; auto-increment keys start at 1. */
  const EmptyStore: Store := Store(map[], 1, 0)

  /** What every store reachable through the handlers satisfies: rows are
      stored under their own id, ids lie below the counter, timestamps lie
      below the clock with `created_at <= updated_at`, every status is legal,
      and `created_at` grows with insertion order. */
  ghost predicate Valid(s: Store) {
    && s.nextId >= 1
    && (forall k :: k in s.rows ==> 1 <= k < s.nextId && s.rows[k].id == k)
    && (forall k :: k in s.rows ==> s.rows[k].createdAt <= s.rows[k].updatedAt < s.clock)
    && (forall k :: k in s.rows ==> IsAllowedStatus(s.rows[k].status))
    && (forall j, k :: j in s.rows && k in s.rows && j < k ==>
          s.rows[j].createdAt < s.rows[k].createdAt)
  }

  lemma EmptyStoreValid()
    ensures Valid(EmptyStore)
  {
  }
}
